=== FILE: README.md ===
# Eco-scan backend: a Dafny model of the scan pipeline

The backend takes a photo of a product barcode (or a typed barcode number),
looks the product up in the Open Food Facts catalog, and answers with the
product's eco grade, its carbon footprint, a list of sustainability
recommendations and, for high-footprint products, up to three alternatives
from the same category with a better eco grade.

This project models the deterministic decision logic of `backend/main.py`:

- **GTIN acceptance** (module `Barcode`). A code is taken from the first
  decoded symbol only. It is accepted when Python's `str.isdigit` holds and
  it is 8, 12, 13 or 14 characters long. `isdigit` also admits non-ASCII
  digits (see Findings); the handlers use that test as written, and
  `Barcode.IsGtin` is the ASCII-only test evidently intended. The GS1 check
  digit is not verified.
- **Eco-grade scoring** (module `EcoScore`). `get_eco_score_value` maps
  a..e, after lower-casing, to 95/80/65/45/20. Anything else scores 50.
- **Recommendations** (module `RecommendationEngine`).
  `generate_recommendations` runs four independent rules in a fixed order:
  carbon, eco grade, nutrition grade, packaging. When none fires, it adds a
  fallback entry. The result is in rule order, not priority order. The rule
  set is also given as a table that is evaluated uniformly, and the two
  readings are proved equal.
- **Alternatives** (module `AlternativeSelector`). This is the pure part of
  `fetch_alternatives`:
  - the search tag is the first comma segment of the category, stripped;
  - the first five search results are examined;
  - those with a strictly better eco score are kept, in search order;
  - the list is cut to three.

  It is given both as a recursive definition and as the source's loop
  (`CollectAlternatives`), and the two are proved equal.
- **Outcomes** (module `ScanPipeline`). `scan_product` and `get_product`
  are modelled as functions from their inputs to a `Response` or an HTTP
  error. Their parts are:
  - the carbon-footprint extraction;
  - the `is_high_carbon` decision;
  - the not-found and success branches;
  - the footprint unit, where the two handlers differ.

Supporting modules:

- `Wrappers` holds `Option`.
- `Text` models Python string behaviour used by the code:
  - `str.lower`/`str.upper` on ASCII;
  - substring `in`;
  - `split(',')[0]`;
  - `str.strip` with Python's whitespace set.
- `Catalog` models the catalog's JSON records. A field is `Missing`,
  `Null` or a `Value`, so that `dict.get(key, default)` returns the
  default only for a missing key, exactly as in Python.

The image decoder, the catalog lookup and the category search are
parameters (functions) of the handlers.

A reader might expect a few behaviours that the code does not have, so the
model does not have them either:

- Recommendations are returned in rule-evaluation order. They are not
  sorted by priority (`NotSortedByPriority` exhibits a low entry before a
  medium one).
- A failed catalog request is not retried. It becomes HTTP 500 at once.
- Alternatives are not re-ranked by the backend. Only the search's
  `sort_by` parameter orders them, and the model keeps the search order.
- The scanned product itself is not excluded from its alternatives.
- Alternatives are requested only for high-footprint products.

## Model

| member | source | states |
|---|---|---|
| Barcode.ExtractGtin | backend/main.py:54-67 | Only the first decoded symbol is considered. A code is returned only if it is valid UTF-8 text passing the source's `isdigit` and length test, and such a first symbol is always returned. An unreadable image, no symbols or a failing first symbol give nothing. |
| Barcode.OnlyFirstSymbolCounts | backend/main.py:58-61 | Symbols after the first never change the extracted code. |
| Barcode.GtinIsFixedWidthNumber | backend/main.py:62 | The corrected test accepts a string exactly when it has a GS1 length (8, 12, 13, 14) and is the zero-padded decimal rendering of some number at that width. In both directions: an accepted code is a fixed-width number with nothing else in it, and every such number is accepted. |
| Barcode.DigitsAreFixedWidthNumber | backend/main.py:62 | Every string of ASCII digits is the zero-padded rendering of its own decimal value at its own length. So the digits the corrected test admits carry no information beyond the number and its width. |
| Barcode.Render | backend/main.py:62 | A rendering at width w has exactly w ASCII digits. |
| Barcode.RenderedIsGtin | backend/main.py:271 | Conversely, every zero-padded number at a GS1 length (8, 12, 13, 14) passes the corrected GTIN test. |
| Barcode.AsWrittenAcceptsEveryGtin | backend/main.py:271 | The source's `isdigit` test accepts every code the corrected ASCII test accepts. |
| Barcode.SuperscriptCodeAccepted | backend/main.py:271 | The source's `isdigit` test accepts eight superscript twos, which the corrected test rejects. |
| Barcode.ArabicIndicCodeAccepted | backend/main.py:62 | The source's test accepts the Arabic-Indic digits zero to seven, which the corrected test rejects. |
| Barcode.TaiLueCodeAccepted | backend/main.py:62 | U+19DA (New Tai Lue digit one) lies in no decimal-digit block, yet eight of them pass the source's test and fail the corrected one. |
| EcoScore.GradeOf | backend/main.py:72 | The lookup table has a key exactly for the one-letter lower-case strings a..e. |
| EcoScore.EcoScoreValue | backend/main.py:70-73 | The score is between 20 and 95. It is the default 50 exactly when the grade is not a single letter a..e in either case. Otherwise it is the points of the lower-cased letter. |
| EcoScore.PointsStrictlyDecreasing | backend/main.py:72 | A better grade scores strictly more than a worse one, and conversely (a > b > c > d > e). |
| EcoScore.LetterScores | backend/main.py:72-73 | Each grade letter scores its points in lower case and in upper case. |
| EcoScore.CaseInsensitive | backend/main.py:73 | Lower-casing or upper-casing the grade never changes its score. |
| EcoScore.MissingIsEmpty | backend/main.py:73 | A missing (None) grade and an empty grade both score the default 50. |
| EcoScore.TopGradeUnbeaten | backend/main.py:72-73 | No grade, whatever its value, scores more than grade a. |
| RecommendationEngine.CarbonRule | backend/main.py:82-88 | The carbon rule yields at most one entry, and only a carbon entry. |
| RecommendationEngine.EcoRule | backend/main.py:90-102 | The eco rule yields at most one entry, and only an eco entry (poor or good). |
| RecommendationEngine.NutritionRule | backend/main.py:104-110 | The nutrition rule yields at most one entry, and only a nutrition entry. |
| RecommendationEngine.PackagingRule | backend/main.py:112-119 | The packaging rule yields at most one entry, and only a packaging entry. |
| RecommendationEngine.ConcatenationInRuleOrder | backend/main.py:78-119 | Appending the four rules' outputs in evaluation order gives at most four entries. They are in strictly increasing rule order and never include the fallback. |
| RecommendationEngine.Recommendations | backend/main.py:76-128 | The list is never empty and has at most four entries. Entries follow rule order with at most one per rule. When the fallback appears it is the only entry. |
| RecommendationEngine.CarbonRuleFires | backend/main.py:82-88 | The carbon entry appears exactly when the footprint is strictly above 2.0, and then it is first. |
| RecommendationEngine.EcoRuleFires | backend/main.py:90-102 | The poor-eco entry appears exactly when the grade is literally "d" or "e". The good-eco entry appears exactly when it is literally "a" or "b". No case folding is applied. |
| RecommendationEngine.NutritionRuleFires | backend/main.py:104-110 | A nutrition entry appears exactly when the nutrition grade is literally "d" or "e". It names the product's grade upper-cased, so always "D" or "E". |
| RecommendationEngine.PackagingRuleFires | backend/main.py:112-119 | The packaging entry appears exactly when some packaging tag contains "plastic" in any letter case. |
| RecommendationEngine.FallbackIffNothingFires | backend/main.py:121-126 | The fallback entry appears exactly when none of the four rule conditions holds. |
| RecommendationEngine.Evaluate | backend/main.py:78-119 | Evaluating a rule table yields at most one entry per rule. |
| RecommendationEngine.Emitted | backend/main.py:78-119 | One rule firing contributes at most one entry. |
| RecommendationEngine.RuleTableUnfolds | backend/main.py:82-119 | Evaluating the four-rule table appends the four rules' entries in table order. |
| RecommendationEngine.FiringsAgree | backend/main.py:82-119 | Each table rule emits exactly what the corresponding inline rule of the engine emits. |
| RecommendationEngine.RecommendationsFollowRuleTable | backend/main.py:76-128 | The engine equals the ordered rule table (carbon, eco, nutrition, packaging) evaluated uniformly, with the fallback when the table yields nothing. |
| RecommendationEngine.NotSortedByPriority | backend/main.py:90-110 | Eco grade "a" with nutrition grade "d" gives the low good-eco entry before the medium nutrition entry. So the output is not priority-sorted. |
| RecommendationEngine.CarbonThenEco | backend/main.py:82-96 | A high footprint together with a poor eco grade gives the carbon entry first and the poor-eco entry second. |
| RecommendationEngine.ThresholdIsExclusive | backend/main.py:83 | A footprint of exactly 2.0 does not produce the carbon entry. |
| Text.Lower | backend/main.py:114 | Lower-casing keeps the length. It maps each letter A..Z to a..z and leaves every other character alone. |
| Text.Upper | backend/main.py:108 | Upper-casing keeps the length. It maps each letter a..z to the capital that lower-cases back to it, and leaves every other character alone. It is only applied to "d" or "e", where ASCII folding is exact. |
| Text.Contains | backend/main.py:114 | The substring test holds exactly when the pattern occurs at some position of the string. |
| Text.FirstSegment | backend/main.py:143 | The first comma segment is a prefix without commas. It ends at the first comma or at the end of the string. |
| Text.Strip | backend/main.py:143 | Stripping removes exactly the leading and trailing Python whitespace. The result is a contiguous piece of the input, and it is empty or starts and ends with non-whitespace. |
| Text.StripIsInfix | backend/main.py:143 | The stripped string occurs inside the original. |
| AlternativeSelector.SearchTag | backend/main.py:133-143 | A search tag exists exactly when the category is present and non-empty. |
| AlternativeSelector.SearchTagShape | backend/main.py:143 | The tag has no comma, occurs inside the category, and has no surrounding whitespace. For a category without commas it is the whole category stripped. |
| AlternativeSelector.Project | backend/main.py:164-170 | An alternative's eco score is the hit's grade, or "" when that key is missing. Its name and brand default to "Unknown" when their keys are missing. Its image URL and code are the hit's own, or null when absent. |
| AlternativeSelector.Take | backend/main.py:161-172 | Python `s[:n]`: the first n elements, or all when there are fewer. |
| AlternativeSelector.PrefixOfSubsequence | backend/main.py:172 | Truncating an order-preserving subsequence keeps it one. |
| AlternativeSelector.KeepBetter | backend/main.py:159-170 | Every kept view scores strictly more than the current product. Every strictly better hit's view is kept. |
| AlternativeSelector.KeepBetterIsSubsequence | backend/main.py:161-170 | The kept views keep search order: they are a subsequence of all hits' views. |
| AlternativeSelector.KeepBetterSnoc | backend/main.py:161-170 | Appending a hit appends its view exactly when it is better, as one loop iteration does. |
| AlternativeSelector.BetterPositionsExtend | backend/main.py:163 | Appending a hit adds its position to the better positions exactly when it is better. |
| AlternativeSelector.BetterPositionsSnoc | backend/main.py:163 | Appending a hit raises the number of better positions by one exactly when it is better. |
| AlternativeSelector.KeepBetterCount | backend/main.py:161-170 | There are exactly as many kept views as better hits: one view per better hit, duplicates included. With the subsequence lemma this fixes the kept list. |
| AlternativeSelector.Candidates | backend/main.py:133-175 | At most five hits are examined. No search is made when the category is absent or empty. A failed search gives no hits, as the caught exception returns an empty list. |
| AlternativeSelector.CandidatesAreFirstResults | backend/main.py:139-161 | When the search answers, the examined hits are exactly its first five results. |
| AlternativeSelector.Alternatives | backend/main.py:131-175 | At most three alternatives are returned. An absent or empty category gives none. Every alternative scores strictly better than the current grade. |
| AlternativeSelector.KeptPrefixKeepsOrder | backend/main.py:158-172 | For any list of hits, the first three views kept by the strict filter form an order-preserving subsequence of all the hits' views. |
| AlternativeSelector.AlternativesKeepSearchOrder | backend/main.py:158-172 | The alternatives are an order-preserving subsequence of the first five hits' views. |
| AlternativeSelector.AlternativesAreFirstBetter | backend/main.py:158-172 | The alternatives are the first of the kept views, and there are min(3, number of better candidates) of them. So with four better candidates the first three are returned. |
| AlternativeSelector.AlternativesComplete | backend/main.py:161-172 | When fewer than three are returned, no strictly better hit among the first five was dropped. |
| AlternativeSelector.BestGradeHasNoAlternatives | backend/main.py:159-163 | A product graded a (either case) never gets alternatives. |
| AlternativeSelector.CollectStep | backend/main.py:161-170 | One loop iteration moves hit i from the pending part to the found part when it is better. |
| AlternativeSelector.CollectAlternatives | backend/main.py:158-172 | The source's loop computes the recursive definition: the better hits among the first five, cut to three. |
| ScanPipeline.CarbonFootprint | backend/main.py:227-232 | A footprint is reported only when eco data is present. |
| ScanPipeline.HighCarbonUnitsAgree | backend/main.py:233 | For a high footprint both handlers report the unit "kg CO2e/kg". |
| ScanPipeline.FootprintOrZero | backend/main.py:235-238 | The figure passed to the engine exceeds 2.0 exactly when `is_high_carbon` holds. |
| ScanPipeline.UnitFor | backend/main.py:321 | The unit is always "kg CO2e/kg" when set. The scan handler sets it exactly when eco data is present. The product handler sets it exactly when the footprint is present and non-zero. |
| ScanPipeline.ProductName | backend/main.py:251 | A truthy `product_name` always wins. The name is null exactly when `product_name` is falsy and `product_name_en` is JSON null. It is empty only when `product_name_en` is the empty string. A missing `product_name_en` always gives a non-empty name. A non-empty name is `product_name`, `product_name_en` or "Unknown Product". |
| ScanPipeline.NotFoundResponse | backend/main.py:200-222 | A not-found response is well formed and carries only the status, the given GTIN and the message. Name, brand, image, category, ingredients and both grades are None. Its recommendations and alternatives are empty, it is not high-carbon, and it has no footprint, unit or source. |
| ScanPipeline.SuccessResponse | backend/main.py:224-264 | A success response is well formed and carries the GTIN, the footprint, the handler's unit and the engine's recommendations. When high-carbon, it carries the alternatives for the product's category and grade. The name follows `ProductName`, and the brand defaults to "Unknown Brand" when its key is missing. The image, category, ingredients, nutrition grade and eco grade are the product's own fields, or null when absent. |
| ScanPipeline.Resolve | backend/main.py:283-290 | A failed lookup gives HTTP 500, exactly. Any catalog reply gives a response. A missing product or status 0 gives not-found carrying the GTIN, exactly. Anything else gives the success response. |
| ScanPipeline.Scan | backend/main.py:188-264 | An empty upload gives HTTP 400, exactly. No GTIN gives not-found with no GTIN. A response always carries the extracted GTIN and is well formed. For an extracted GTIN: a failed lookup gives HTTP 500, exactly; not-found is given exactly when the catalog has no product or status 0; a product with any other status gives success. Success implies the catalog returned a product. A success response is exactly the success response for the extracted code and the product the catalog returned, on the scan route. |
| ScanPipeline.GetProduct | backend/main.py:267-326 | HTTP 400 is returned exactly for codes failing the source's `isdigit` and length test. A response is well formed and carries the code. For an accepted code: a failed lookup gives HTTP 500, exactly; not-found is given exactly when the catalog has no product or status 0; a product with any other status gives success. Success implies the catalog returned a product. A success response is exactly the success response for the code and the product the catalog returned, on the product route. |
| ScanPipeline.ScanAgreesWithLookup | backend/main.py:188-326 | Scanning and direct lookup of the same code agree on everything except the not-found message and the unit. The units agree whenever the footprint is present and non-zero. |
| ScanPipeline.SuperscriptCodeLookedUp | backend/main.py:271-290 | A typed code of eight superscript twos is not rejected with HTTP 400. It is looked up, and a catalog answer gives a response carrying that code. |
| ScanPipeline.UnitDivergence | backend/main.py:229-233 | With eco data lacking `co2_total`, the product handler reports no unit but the scan handler reports "kg CO2e/kg". |
| ScanPipeline.NoAlternativesUnlessHighCarbon | backend/main.py:300-308 | A product that is not high-carbon never gets alternatives, whatever the search returns. |
| ScanPipeline.AlternativesBeatProduct | backend/main.py:303-308 | Every alternative in a success response scores strictly more than the looked-up product. |
| ScanPipeline.HighFootprintPoorGrade | backend/main.py:292-324 | A product graded e with a footprint above 2.0 is flagged high. Its recommendations start with the carbon entry followed by the poor-eco entry. |
| ScanPipeline.TopGradeWithoutFootprint | backend/main.py:292-324 | A product graded a without eco data is not high-carbon. It gets the good-eco entry and no alternatives. |

## Left out

- HTTP transport is not modelled, because it is glue around the logic:
  - the FastAPI application and CORS;
  - the `/` and `/health` routes;
  - request parsing and response serialisation.

  HTTP errors are the `HttpError` outcome with their status code and detail.
- The network is not modelled: httpx requests, timeouts, the User-Agent header and environment loading. The catalog lookup and the category search are function parameters. A transport failure is `Unreachable` or `SearchFailed`.
- Image decoding (PIL and pyzbar) is foreign code. The decoder is a parameter returning the decoded symbols. Non-UTF-8 data and unopenable images are explicit cases.
- The recommendation texts and icons are not modelled as free text.
  - Each `Recommendation` variant stands for one fixed text. It keeps the footprint or the nutrition grade that its text quotes.
  - The `:.2f` rendering of the footprint is not modelled.
- The footprint is a `real` and is used only in comparisons. Floating-point rounding is not modelled.
- The catalog reply is simplified in three ways:
  - a product that is absent, null or an empty dict is `product: None` (all three are falsy in Python);
  - a reply without a `products` key is an empty hit list;
  - the status is compared only with the integer 0.
- JSON values of the wrong type are not modelled. Each raises an exception in the source:
  - a null `agribalyse` object raises `AttributeError` at line 232 or 298 (`None.get`), which surfaces as HTTP 500;
  - a null `packaging_tags` list raises `TypeError` at line 114, which surfaces as HTTP 500;
  - a non-string packaging tag raises `AttributeError` at line 114 (`.lower()`), which surfaces as HTTP 500;
  - a `co2_total` that is a string, list or object raises `TypeError` at line 235 or 300 (the comparison), which surfaces as HTTP 500. A boolean compares like a number and raises nothing;
  - inside `fetch_alternatives`, a non-string category raises `AttributeError` at line 143 (`.split`), and a non-string grade raises `AttributeError` at line 73 (`.lower()`). Both are caught, and the result is an empty list.

  A non-string grade raises nothing in `generate_recommendations`, where lines 91 and 105 only test list membership.
- `print` logging and async/await are not modelled.
- Text.Lower: lower-cases ASCII letters only. Python's `str.lower` also folds non-ASCII letters. That can matter only for grade strings or packaging tags containing non-ASCII capitals.
- Barcode.IsPythonDigit: covers every Basic Multilingual Plane character for which `str.isdigit()` holds in Unicode 15.0 (the tables of Python 3.12; the source pins no Python version): the decimal digits of the scripts, the superscript, subscript, circled and Ethiopic digits, and U+19DA. It leaves out the digits beyond that plane (mathematical and supplementary-script digits). Other Unicode versions differ slightly.
- Barcode.ExtractGtin: returns nothing for a first symbol made of digits beyond the Basic Multilingual Plane, which the source accepts, because it uses `IsPythonDigit`.
- ScanPipeline.Scan: answers not-found with no GTIN for a decoded code made of digits beyond the Basic Multilingual Plane, where the source looks the code up, for the same reason.
- ScanPipeline.GetProduct: answers HTTP 400 for a code made of digits beyond the Basic Multilingual Plane, where the source looks the code up, for the same reason.

## Findings

| source | as written | input that shows it | evidently intended | confidence | as-written member | corrected member |
|---|---|---|---|---|---|---|
| backend/main.py:62 | `gtin.isdigit()` (here and again at line 271) accepts any Unicode digit, including superscripts, fullwidth and Arabic-Indic digits | the code "²²²²²²²²" (eight superscript twos) passes the GTIN test and is sent to the catalog | only the ASCII digits 0-9, so that a GTIN is a fixed-width decimal number | medium; not executed | Barcode.SuperscriptCodeAccepted | Barcode.GtinIsFixedWidthNumber |

The handlers run the test as written, as the source does (`ScanPipeline.SuperscriptCodeLookedUp` shows such a code reaching the catalog). The corrected test is `Barcode.IsGtin`: `GtinIsFixedWidthNumber` and `RenderedIsGtin` prove that it accepts exactly the fixed-width decimal numbers at GS1 lengths.

=== FILE: alternatives.dfy ===
/**
 Alternative selection (the pure part of `fetch_alternatives`): search the
 first category segment, keep the first five results, keep those whose eco
 score is strictly better than the product's, and return at most three, in
 the order the search returned them.  The search itself is a parameter.
 */
module AlternativeSelector {
  import opened Wrappers
  import opened Text
  import opened EcoScore
  import opened Catalog

  /** Results looked at per search (also the requested page size). */
  const MaxSearchResults: nat := 5

  /** Alternatives returned at most. */
  const MaxAlternatives: nat := 3

  /** The read-only view of a search hit that the response carries. */
  datatype Alternative = Alternative(
    name: Option<string>,
    brand: Option<string>,
    ecoScore: Option<string>,
    imageUrl: Option<string>,
    gtin: Option<string>)

  function Project(h: Hit): (a: Alternative)
    ensures a.ecoScore == h.ecoscoreGrade.GetOr("")
    ensures a.name == h.productName.GetOr("Unknown") && a.brand == h.brands.GetOr("Unknown")
    ensures a.imageUrl == h.imageFrontSmallUrl.Get() && a.gtin == h.code.Get()
  {
    Alternative(h.productName.GetOr("Unknown"), h.brands.GetOr("Unknown"),
                h.ecoscoreGrade.GetOr(""), h.imageFrontSmallUrl.Get(), h.code.Get())
  }

  function Projections(hits: seq<Hit>): (r: seq<Alternative>)
    ensures |r| == |hits|
    ensures forall i :: 0 <= i < |hits| ==> r[i] == Project(hits[i])
  {
    seq(|hits|, i requires 0 <= i < |hits| => Project(hits[i]))
  }

  /** Python's `s[:n]`. */
  function Take<T>(s: seq<T>, n: nat): (r: seq<T>)
    ensures |r| == if |s| < n then |s| else n
    ensures r == s[..|r|]
  {
    if |s| <= n then s else s[..n]
  }

  /** `xs` is `ys` with some elements left out, the rest in their original order. */
  predicate IsSubsequence<T(==)>(xs: seq<T>, ys: seq<T>)
    decreases |ys|
  {
    if xs == [] then true
    else if ys == [] then false
    else (xs[0] == ys[0] && IsSubsequence(xs[1..], ys[1..])) || IsSubsequence(xs, ys[1..])
  }

  /** Cutting a subsequence short keeps it a subsequence. */
  lemma {:induction false} PrefixOfSubsequence<T>(xs: seq<T>, ys: seq<T>, n: nat)
    requires IsSubsequence(xs, ys) && n <= |xs|
    ensures IsSubsequence(xs[..n], ys)
    decreases |ys|
  {
    if n == 0 || xs == [] {
    } else if xs[0] == ys[0] && IsSubsequence(xs[1..], ys[1..]) {
      PrefixOfSubsequence(xs[1..], ys[1..], n - 1);
      assert xs[..n][1..] == xs[1..][..n - 1];
    } else {
      PrefixOfSubsequence(xs, ys[1..], n);
    }
  }

  /** `category.split(',')[0].strip()`, or None when the category is absent or empty (no search). */
  function SearchTag(category: Option<string>): (tag: Option<string>)
    ensures tag.None? <==> !Truthy(category)
  {
    if !Truthy(category) then None else Some(Strip(FirstSegment(category.value)))
  }

  /** The tag is a comma-free, whitespace-trimmed piece of the category; without commas, the whole category trimmed. */
  lemma SearchTagShape(category: Option<string>)
    requires Truthy(category)
    ensures var tag := SearchTag(category).value;
            && ',' !in tag && IsInfix(tag, category.value)
            && (tag == [] || (!IsSpace(tag[0]) && !IsSpace(tag[|tag| - 1])))
            && (',' !in category.value ==> tag == Strip(category.value))
  {
    StrippedInside(category.value, FirstSegment(category.value), SearchTag(category).value);
  }

  lemma StrippedInside(category: string, segment: string, tag: string)
    requires segment == FirstSegment(category) && tag == Strip(segment)
    ensures ',' !in tag && IsInfix(tag, category)
    ensures ',' !in category ==> segment == category
  {
    TagInsideSegment(category, segment, tag);
    if |segment| < |category| {
      assert category[|segment|] in category;
    }
  }

  lemma TagInsideSegment(category: string, segment: string, tag: string)
    requires segment == FirstSegment(category) && tag == Strip(segment)
    ensures ',' !in tag && IsInfix(tag, category)
  {
    assert OccursAt(category, segment, 0);
    StripIsInfix(segment);
    InfixTransitive(tag, segment, category);
    InfixCharacters(tag, segment);
  }

  /** A hit whose eco score beats the current product's. */
  predicate IsBetter(h: Hit, current: int) {
    EcoScoreValue(h.ecoscoreGrade.GetOr("")) > current
  }

  /** The views of the better hits, in search order. */
  function KeepBetter(hits: seq<Hit>, current: int): (r: seq<Alternative>)
    ensures |r| <= |hits|
    ensures forall i :: 0 <= i < |r| ==> EcoScoreValue(r[i].ecoScore) > current
    ensures forall i :: 0 <= i < |hits| && IsBetter(hits[i], current) ==> Project(hits[i]) in r
  {
    if hits == [] then []
    else
      var rest := KeepBetter(hits[1..], current);
      assert forall i :: 1 <= i < |hits| ==> hits[i] == hits[1..][i - 1];
      if IsBetter(hits[0], current) then [Project(hits[0])] + rest else rest
  }

  /** The kept views keep the search order: they are a subsequence of all the views. */
  lemma {:induction false} KeepBetterIsSubsequence(hits: seq<Hit>, current: int)
    ensures IsSubsequence(KeepBetter(hits, current), Projections(hits))
  {
    if hits != [] {
      KeepBetterIsSubsequence(hits[1..], current);
      assert Projections(hits)[1..] == Projections(hits[1..]);
    }
  }

  /** Positions of the hits that beat `current`. */
  ghost function BetterPositions(hits: seq<Hit>, current: int): set<int> {
    set i | 0 <= i < |hits| && IsBetter(hits[i], current)
  }

  /** Appending a hit appends its view exactly when it is better. */
  lemma {:induction false} KeepBetterSnoc(hits: seq<Hit>, h: Hit, current: int)
    ensures KeepBetter(hits + [h], current)
            == KeepBetter(hits, current) + (if IsBetter(h, current) then [Project(h)] else [])
  {
    if hits != [] {
      KeepBetterSnoc(hits[1..], h, current);
      assert (hits + [h])[1..] == hits[1..] + [h];
    }
  }

  /** Appending a hit adds its position exactly when it is better. */
  lemma BetterPositionsSnoc(hits: seq<Hit>, h: Hit, current: int)
    ensures |BetterPositions(hits + [h], current)|
            == |BetterPositions(hits, current)| + (if IsBetter(h, current) then 1 else 0)
  {
    var before := BetterPositions(hits, current);
    BetterPositionsExtend(hits, h, current);
    assert |hits| !in before;
  }

  lemma BetterPositionsExtend(hits: seq<Hit>, h: Hit, current: int)
    ensures BetterPositions(hits + [h], current)
            == BetterPositions(hits, current) + (if IsBetter(h, current) then {|hits|} else {})
  {
    var extended := hits + [h];
    assert forall i :: 0 <= i < |hits| ==> extended[i] == hits[i];
    assert extended[|hits|] == h;
  }

  /** One view per better hit: no better hit is dropped or kept twice. */
  lemma {:induction false} KeepBetterCount(hits: seq<Hit>, current: int)
    ensures |KeepBetter(hits, current)| == |BetterPositions(hits, current)|
  {
    if hits != [] {
      var init, last := hits[..|hits| - 1], hits[|hits| - 1];
      assert hits == init + [last];
      KeepBetterSnoc(init, last, current);
      KeepBetterCount(init, current);
      BetterPositionsSnoc(init, last, current);
    }
  }

  /** One loop step: the view of hit `i`, if better, moves from the pending part to the found part. */
  lemma CollectStep(hits: seq<Hit>, i: nat, current: int, found: seq<Alternative>)
    requires i < |hits|
    requires KeepBetter(hits, current) == found + KeepBetter(hits[i..], current)
    ensures KeepBetter(hits, current)
            == (found + if IsBetter(hits[i], current) then [Project(hits[i])] else []) + KeepBetter(hits[i + 1..], current)
  {
  }

  /** The hits the filter looks at: the first five search results, or none when no search is made or it fails. */
  function Candidates(category: Option<string>, search: string -> SearchReply): (hits: seq<Hit>)
    ensures |hits| <= MaxSearchResults
    ensures !Truthy(category) ==> hits == []
    ensures SearchTag(category).Some? && search(SearchTag(category).value).SearchFailed? ==> hits == []
  {
    var tag := SearchTag(category);
    if tag.None? then []
    else
      var reply := search(tag.value);
      if reply.SearchFailed? then [] else Take(reply.hits, MaxSearchResults)
  }

  /** When the search runs and answers, the candidates are its first five results. */
  lemma CandidatesAreFirstResults(category: Option<string>, search: string -> SearchReply, tag: string)
    requires SearchTag(category) == Some(tag) && search(tag).Products?
    ensures var hits := Candidates(category, search);
            && |hits| == (if |search(tag).hits| < MaxSearchResults then |search(tag).hits| else MaxSearchResults)
            && hits == search(tag).hits[..|hits|]
  {
  }

  /** `fetch_alternatives(category, current_grade)` with the catalog search as a parameter. */
  function Alternatives(category: Option<string>, currentGrade: Option<string>,
                        search: string -> SearchReply): (r: seq<Alternative>)
    ensures |r| <= MaxAlternatives
    ensures !Truthy(category) ==> r == []
    ensures forall i :: 0 <= i < |r| ==> EcoScoreValue(r[i].ecoScore) > EcoScoreValue(currentGrade)
  {
    Take(KeepBetter(Candidates(category, search), EcoScoreValue(currentGrade)), MaxAlternatives)
  }

  /** For any hits, the first three better views appear in the hits' order. */
  lemma KeptPrefixKeepsOrder(hits: seq<Hit>, current: int)
    ensures IsSubsequence(Take(KeepBetter(hits, current), MaxAlternatives), Projections(hits))
  {
    var kept := KeepBetter(hits, current);
    KeepBetterIsSubsequence(hits, current);
    PrefixOfSubsequence(kept, Projections(hits), |Take(kept, MaxAlternatives)|);
  }

  /** The alternatives keep the search order: a subsequence of the candidates' views. */
  lemma AlternativesKeepSearchOrder(category: Option<string>, currentGrade: Option<string>,
                                    search: string -> SearchReply)
    ensures IsSubsequence(Alternatives(category, currentGrade, search), Projections(Candidates(category, search)))
  {
    KeptPrefixKeepsOrder(Candidates(category, search), EcoScoreValue(currentGrade));
  }

  /**
   The alternatives are the first of the kept views: the first three, or all
   of them when fewer than three candidates are better.
   */
  lemma AlternativesAreFirstBetter(category: Option<string>, currentGrade: Option<string>,
                                   search: string -> SearchReply)
    ensures var hits := Candidates(category, search);
            var kept := KeepBetter(hits, EcoScoreValue(currentGrade));
            var better := |BetterPositions(hits, EcoScoreValue(currentGrade))|;
            var r := Alternatives(category, currentGrade, search);
            && |r| == (if better < MaxAlternatives then better else MaxAlternatives)
            && r == kept[..|r|]
  {
    KeepBetterCount(Candidates(category, search), EcoScoreValue(currentGrade));
  }

  /** Short of the cap, no better candidate is left out. */
  lemma AlternativesComplete(category: Option<string>, currentGrade: Option<string>,
                             search: string -> SearchReply)
    ensures var r := Alternatives(category, currentGrade, search);
            var hits := Candidates(category, search);
            |r| < MaxAlternatives ==>
              forall i :: 0 <= i < |hits| && IsBetter(hits[i], EcoScoreValue(currentGrade)) ==> Project(hits[i]) in r
  {
  }

  /** A product graded a (in either case) never gets alternatives: nothing scores higher. */
  lemma BestGradeHasNoAlternatives(category: Option<string>, currentGrade: Option<string>,
                                   search: string -> SearchReply)
    requires NamesGrade(currentGrade) && LowerChar(currentGrade.value[0]) == 'a'
    ensures Alternatives(category, currentGrade, search) == []
  {
    var r := Alternatives(category, currentGrade, search);
    if r != [] {
      TopGradeUnbeaten(currentGrade, r[0].ecoScore);
    }
  }

  /**
   The loop of `fetch_alternatives`: walk the first five hits, append the view
   of every better one, then cut the list to three.
   */
  method CollectAlternatives(hits: seq<Hit>, currentGrade: Option<string>) returns (alts: seq<Alternative>)
    ensures alts == Take(KeepBetter(Take(hits, MaxSearchResults), EcoScoreValue(currentGrade)), MaxAlternatives)
  {
    var current := EcoScoreValue(currentGrade);
    var firstFive := Take(hits, MaxSearchResults);
    var found: seq<Alternative> := [];
    var i := 0;
    while i < |firstFive|
      invariant 0 <= i <= |firstFive|
      invariant KeepBetter(firstFive, current) == found + KeepBetter(firstFive[i..], current)
    {
      var h := firstFive[i];
      CollectStep(firstFive, i, current, found);
      if IsBetter(h, current) {
        found := found + [Project(h)];
      }
      i := i + 1;
    }
    assert firstFive[i..] == [];
    alts := Take(found, MaxAlternatives);
  }
}

=== FILE: barcode.dfy ===
/**
 Barcode acceptance: what the decoder hands back, which code is taken, and
 when that code counts as a GTIN.  Only the shape (digits, length) is
 checked; the GS1 check digit is not.
 */
module Barcode {
  import opened Wrappers
  import opened Text

  /** The GS1 GTIN-8, GTIN-12, GTIN-13 and GTIN-14 lengths. */
  const GtinLengths: set<int> := {8, 12, 13, 14}

  /**
   The evidently intended GTIN test: ASCII digits only, at a GS1 length.  The
   handlers run the test as written (`IsGtinAsWritten` below), which also
   admits non-ASCII digits.
   */
  predicate IsGtin(s: string) {
    |s| in GtinLengths && AllAsciiDigits(s)
  }

  /** The data of one decoded symbol: text when its bytes are valid UTF-8. */
  datatype Payload = Utf8(text: string) | NotUtf8

  /** Decoder output for one image: the image could not be opened, or the symbols found in scan order. */
  datatype Decoded = Unreadable | Barcodes(payloads: seq<Payload>)

  /** The code a scan yields: the first symbol's text, if it passes the source's test; otherwise nothing. */
  function ExtractGtin(d: Decoded): (r: Option<string>)
    ensures r.Some? ==> IsGtinAsWritten(r.value)
    ensures r.Some? ==> d.Barcodes? && d.payloads != [] && d.payloads[0] == Utf8(r.value)
    ensures d.Barcodes? && d.payloads != [] && d.payloads[0].Utf8? && IsGtinAsWritten(d.payloads[0].text)
            ==> r.Some?
  {
    match d
    case Unreadable => None
    case Barcodes(payloads) =>
      if payloads == [] then None
      else match payloads[0]
        case NotUtf8 => None
        case Utf8(text) => if IsGtinAsWritten(text) then Some(text) else None
  }

  /** Symbols after the first never influence the result, whatever they hold. */
  lemma OnlyFirstSymbolCounts(p: Payload, rest: seq<Payload>)
    ensures ExtractGtin(Barcodes([p] + rest)) == ExtractGtin(Barcodes([p]))
  {
  }

  // A GTIN is exactly a fixed-width decimal number.

  function DigitValue(c: char): (d: nat)
    requires IsAsciiDigit(c)
    ensures d < 10
  {
    c as int - '0' as int
  }

  function DigitChar(d: nat): (c: char)
    requires d < 10
    ensures IsAsciiDigit(c) && DigitValue(c) == d
  {
    ('0' as int + d) as char
  }

  /** The number a digit string denotes, most significant digit first. */
  function Value(s: string): nat
    requires AllAsciiDigits(s)
  {
    if s == [] then 0 else 10 * Value(s[..|s| - 1]) + DigitValue(s[|s| - 1])
  }

  /** The last `width` decimal digits of `n`, zero-padded on the left. */
  function Render(n: nat, width: nat): (r: string)
    ensures |r| == width && AllAsciiDigits(r)
  {
    if width == 0 then [] else Render(n / 10, width - 1) + [DigitChar(n % 10)]
  }

  /**
   The corrected test accepts exactly the fixed-width decimal numbers at a GS1
   length: the zero-padded renderings of some number at that width.
   */
  lemma GtinIsFixedWidthNumber(s: string)
    ensures IsGtin(s) <==> |s| in GtinLengths && exists n: nat :: Render(n, |s|) == s
  {
    if IsGtin(s) {
      DigitsAreFixedWidthNumber(s);
    }
  }

  /** Every ASCII digit string is the zero-padded rendering of its own value at its own length. */
  lemma {:induction false} DigitsAreFixedWidthNumber(s: string)
    requires AllAsciiDigits(s)
    ensures Render(Value(s), |s|) == s
  {
    if s != [] {
      var init := s[..|s| - 1];
      var n := Value(s);
      assert n / 10 == Value(init) && n % 10 == DigitValue(s[|s| - 1]);
      DigitsAreFixedWidthNumber(init);
      assert s == init + [s[|s| - 1]];
    }
  }

  /** Conversely every rendering at a GS1 length is accepted. */
  lemma RenderedIsGtin(n: nat, width: nat)
    requires width in GtinLengths
    ensures IsGtin(Render(n, width))
  {
  }

  // The source tests `str.isdigit()`, which Python also grants to many
  // non-ASCII characters: every decimal digit of every script, and the
  // superscript, subscript and circled digits.

  /**
   Code points of the digit zero of each script in the Basic Multilingual
   Plane whose ten decimal digits `str.isdigit()` accepts, ASCII first.
   */
  const DecimalZeros: set<int> := {
    0x30, 0x660, 0x6F0, 0x7C0, 0x966, 0x9E6, 0xA66, 0xAE6, 0xB66, 0xBE6, 0xC66, 0xCE6,
    0xD66, 0xDE6, 0xE50, 0xED0, 0xF20, 0x1040, 0x1090, 0x17E0, 0x1810, 0x1946, 0x19D0,
    0x1A80, 0x1A90, 0x1B50, 0x1BB0, 0x1C40, 0x1C50, 0xA620, 0xA8D0, 0xA900, 0xA9D0,
    0xA9F0, 0xAA50, 0xABF0, 0xFF10 }

  /**
   The superscript, subscript, circled and Ethiopic digits, and the lone New
   Tai Lue digit one (U+19DA), which `str.isdigit()` also accepts.
   */
  predicate IsOtherPythonDigit(c: char) {
    || c == '\U{B2}' || c == '\U{B3}' || c == '\U{B9}' || c == '\U{2070}' || c == '\U{19DA}'
    || '\U{2074}' <= c <= '\U{2079}' || '\U{2080}' <= c <= '\U{2089}'
    || '\U{1369}' <= c <= '\U{1371}'
    || '\U{2460}' <= c <= '\U{2468}' || '\U{2474}' <= c <= '\U{247C}' || '\U{2488}' <= c <= '\U{2490}'
    || c == '\U{24EA}' || '\U{24F5}' <= c <= '\U{24FD}' || c == '\U{24FF}'
    || '\U{2776}' <= c <= '\U{277E}' || '\U{2780}' <= c <= '\U{2788}' || '\U{278A}' <= c <= '\U{2792}'
  }

  /** `str.isdigit()` on one character. */
  predicate IsPythonDigit(c: char) {
    || (exists zero :: zero in DecimalZeros && zero <= c as int <= zero + 9)
    || IsOtherPythonDigit(c)
  }

  /** The acceptance test exactly as the source states it. */
  predicate IsGtinAsWritten(s: string) {
    |s| in GtinLengths && forall i :: 0 <= i < |s| ==> IsPythonDigit(s[i])
  }

  /** The as-written test lets through everything the corrected one does ... */
  lemma AsWrittenAcceptsEveryGtin(s: string)
    requires IsGtin(s)
    ensures IsGtinAsWritten(s)
  {
    forall i | 0 <= i < |s|
      ensures IsPythonDigit(s[i])
    {
      assert 0x30 in DecimalZeros;
    }
  }

  /** ... and also eight superscript twos, which denote no number at all. */
  lemma SuperscriptCodeAccepted()
    ensures IsGtinAsWritten("\U{B2}\U{B2}\U{B2}\U{B2}\U{B2}\U{B2}\U{B2}\U{B2}")
    ensures !IsGtin("\U{B2}\U{B2}\U{B2}\U{B2}\U{B2}\U{B2}\U{B2}\U{B2}")
  {
    var s := "\U{B2}\U{B2}\U{B2}\U{B2}\U{B2}\U{B2}\U{B2}\U{B2}";
    assert !IsAsciiDigit(s[0]);
  }

  /** Arabic-Indic digits zero to seven pass the source's test as well. */
  lemma ArabicIndicCodeAccepted()
    ensures IsGtinAsWritten("\U{660}\U{661}\U{662}\U{663}\U{664}\U{665}\U{666}\U{667}")
    ensures !IsGtin("\U{660}\U{661}\U{662}\U{663}\U{664}\U{665}\U{666}\U{667}")
  {
    var s := "\U{660}\U{661}\U{662}\U{663}\U{664}\U{665}\U{666}\U{667}";
    assert 0x660 in DecimalZeros;
    forall i | 0 <= i < |s|
      ensures IsPythonDigit(s[i])
    {
      assert 0x660 <= s[i] as int <= 0x669;
    }
    assert !IsAsciiDigit(s[0]);
  }

  /**
   U+19DA lies just past the New Tai Lue decimal block, in no decimal block at
   all, yet it is a digit to `str.isdigit()`; eight of them pass the source's
   test and fail the corrected one.
   */
  lemma TaiLueCodeAccepted()
    ensures forall zero :: zero in DecimalZeros ==> !(zero <= 0x19DA <= zero + 9)
    ensures IsGtinAsWritten("\U{19DA}\U{19DA}\U{19DA}\U{19DA}\U{19DA}\U{19DA}\U{19DA}\U{19DA}")
    ensures !IsGtin("\U{19DA}\U{19DA}\U{19DA}\U{19DA}\U{19DA}\U{19DA}\U{19DA}\U{19DA}")
  {
    var s := "\U{19DA}\U{19DA}\U{19DA}\U{19DA}\U{19DA}\U{19DA}\U{19DA}\U{19DA}";
    assert !IsAsciiDigit(s[0]);
  }
}

=== FILE: catalog.dfy ===
/**
 The catalog's JSON records as the backend reads them.  Every string field
 can be absent, JSON null, or present, because `dict.get(key, default)`
 substitutes the default only for an absent key.
 */
module Catalog {
  import opened Wrappers

  /** One key of a JSON object. */
  datatype Field<T> = Missing | Null | Value(v: T) {

    /** `d.get(key)` */
    function Get(): (r: Option<T>)
      ensures r.Some? <==> Value?
    {
      if Value? then Some(v) else None
    }

    /** `d.get(key, default)`: only an absent key takes the default; null stays None. */
    function GetOr(default: T): (r: Option<T>)
      ensures r.None? <==> Null?
      ensures Missing? ==> r == Some(default)
      ensures Value? ==> r == Some(v)
    {
      match this
      case Missing => Some(default)
      case Null => None
      case Value(v) => Some(v)
    }
  }

  /** Python truthiness of an optional string: present and non-empty. */
  predicate Truthy(s: Option<string>) {
    s.Some? && s.value != ""
  }

  /**
   A non-empty `ecoscore_data` object: `co2Total` is its `agribalyse.co2_total`,
   None when that object or key is absent or null.
   */
  datatype Ecoscore = Ecoscore(co2Total: Option<real>)

  /**
   A catalog product record.  `ecoscoreData` is None when the key is absent,
   null or an empty object; an absent `packaging_tags` is the empty list.
   */
  datatype Product = Product(
    productName: Field<string>,
    productNameEn: Field<string>,
    brands: Field<string>,
    imageFrontUrl: Field<string>,
    categories: Field<string>,
    ingredientsTextEn: Field<string>,
    nutriscoreGrade: Field<string>,
    ecoscoreGrade: Field<string>,
    ecoscoreData: Option<Ecoscore>,
    packagingTags: seq<string>)

  /**
   The product lookup: the request failed (network, timeout, undecodable JSON),
   or the JSON body with its `status` and `product` keys.  `product` is None
   when it is absent, null or an empty object.
   */
  datatype CatalogReply = Unreachable | Reply(status: Option<int>, product: Option<Product>)

  /** One product of a category search result. */
  datatype Hit = Hit(
    productName: Field<string>,
    brands: Field<string>,
    ecoscoreGrade: Field<string>,
    imageFrontSmallUrl: Field<string>,
    code: Field<string>)

  /**
   The category search: the request failed, or the `products` list it returned
   (an absent key reads as the empty list).
   */
  datatype SearchReply = SearchFailed | Products(hits: seq<Hit>)
}

=== FILE: ecoscore.dfy ===
/**
 Eco-grade scoring (`get_eco_score_value`): a letter grade a..e, looked up
 after lower-casing, becomes a number; anything else scores the default.
 */
module EcoScore {
  import opened Wrappers
  import opened Text

  /** The eco grades, best (A) to worst (E). */
  datatype Grade = A | B | C | D | E {

    /** The lower-case letter the catalog uses for this grade. */
    function Letter(): char {
      match this
      case A => 'a'
      case B => 'b'
      case C => 'c'
      case D => 'd'
      case E => 'e'
    }

    /** Position in best-to-worst order. */
    function Rank(): nat {
      match this
      case A => 0
      case B => 1
      case C => 2
      case D => 3
      case E => 4
    }
  }

  /** The grade a lower-case one-letter string names, if any. */
  function GradeOf(s: string): (g: Option<Grade>)
    ensures g.Some? <==> |s| == 1 && 'a' <= s[0] <= 'e'
    ensures g.Some? ==> s == [g.value.Letter()]
  {
    if s == "a" then Some(A)
    else if s == "b" then Some(B)
    else if s == "c" then Some(C)
    else if s == "d" then Some(D)
    else if s == "e" then Some(E)
    else None
  }

  function Points(g: Grade): int {
    match g
    case A => 95
    case B => 80
    case C => 65
    case D => 45
    case E => 20
  }

  /** Score of a missing, empty or unknown grade. */
  const DefaultScore: int := 50

  /** True when `grade` is one letter a..e in either case. */
  predicate NamesGrade(grade: Option<string>) {
    grade.Some? && |grade.value| == 1 && 'a' <= LowerChar(grade.value[0]) <= 'e'
  }

  /** `get_eco_score_value`: a falsy grade is looked up as the empty key. */
  function EcoScoreValue(grade: Option<string>): (v: int)
    ensures 20 <= v <= 95
    ensures v == DefaultScore <==> !NamesGrade(grade)
    ensures NamesGrade(grade) ==> v == Points(GradeOf(Lower(grade.value)).value)
  {
    var key := if grade.Some? && grade.value != "" then Lower(grade.value) else "";
    match GradeOf(key)
    case Some(g) => Points(g)
    case None => DefaultScore
  }

  /** Better grades score strictly more: a > b > c > d > e. */
  lemma PointsStrictlyDecreasing(g: Grade, h: Grade)
    ensures g.Rank() < h.Rank() <==> Points(g) > Points(h)
  {
  }

  /** The lookup table: each letter, in lower or upper case, scores its grade's points. */
  lemma LetterScores(g: Grade)
    ensures EcoScoreValue(Some([g.Letter()])) == Points(g)
    ensures EcoScoreValue(Some([UpperChar(g.Letter())])) == Points(g)
  {
  }

  /** The score ignores letter case. */
  lemma CaseInsensitive(s: string)
    ensures EcoScoreValue(Some(Lower(s))) == EcoScoreValue(Some(s))
    ensures EcoScoreValue(Some(Upper(s))) == EcoScoreValue(Some(s))
  {
  }

  /** A missing grade and an empty grade score alike. */
  lemma MissingIsEmpty()
    ensures EcoScoreValue(None) == EcoScoreValue(Some("")) == DefaultScore
  {
  }

  /** Nothing scores more than grade a. */
  lemma TopGradeUnbeaten(grade: Option<string>, other: Option<string>)
    requires NamesGrade(grade) && LowerChar(grade.value[0]) == 'a'
    ensures EcoScoreValue(other) <= EcoScoreValue(grade)
  {
  }
}

=== FILE: pipeline.dfy ===
/**
 The two entry points, `scan_product` (an uploaded image) and `get_product`
 (a typed GTIN), as functions from their inputs to the response.  The image
 decoder, the product lookup and the category search are parameters; HTTP
 errors raised by the handlers are the `HttpError` outcome.
 */
module ScanPipeline {
  import opened Wrappers
  import opened Catalog
  import opened Barcode
  import opened EcoScore
  import opened RecommendationEngine
  import opened AlternativeSelector

  newtype byte = x: int | 0 <= x < 256

  const Source: string := "OpenFoodFacts"
  const FootprintUnit: string := "kg CO2e/kg"
  const NoBarcodeMessage: string := "No barcode detected. Please ensure the barcode is clearly visible."

  datatype Status = Success | NotFound

  /** The response record; fields left at their defaults are None, false or empty. */
  datatype Response = Response(
    status: Status,
    gtin: Option<string>,
    name: Option<string>,
    brand: Option<string>,
    imageUrl: Option<string>,
    category: Option<string>,
    ingredientsText: Option<string>,
    nutriScore: Option<string>,
    ecoScore: Option<string>,
    carbonFootprint: Option<real>,
    carbonFootprintUnit: Option<string>,
    isHighCarbon: bool,
    recommendations: seq<Recommendation>,
    alternatives: seq<Alternative>,
    source: Option<string>,
    message: Option<string>)

  /** What a handler produces: a response body, or an HTTP error with its status code and detail. */
  datatype Outcome = Respond(response: Response) | HttpError(code: int, detail: string)

  /** Which handler is running; they differ in the footprint unit and the not-found message. */
  datatype Route = ScanRoute | ProductRoute

  /** The invariants every response satisfies. */
  predicate WellFormed(r: Response) {
    && (r.isHighCarbon <==> r.carbonFootprint.Some? && r.carbonFootprint.value > CarbonThreshold)
    && (!r.isHighCarbon ==> r.alternatives == [])
    && |r.alternatives| <= MaxAlternatives
    && (r.carbonFootprintUnit.Some? ==> r.carbonFootprintUnit.value == FootprintUnit)
    && (r.status == Success <==> r.source == Some(Source))
    && (r.status == Success ==> r.gtin.Some? && IsGtinAsWritten(r.gtin.value) && r.recommendations != [])
    && (r.status == NotFound ==>
          && r.message.Some? && r.recommendations == [] && r.carbonFootprint.None?
          && r.name.None? && r.brand.None? && r.imageUrl.None? && r.category.None?
          && r.ingredientsText.None? && r.nutriScore.None? && r.ecoScore.None?)
  }

  /** `agribalyse.co2_total` of a non-empty `ecoscore_data`. */
  function CarbonFootprint(p: Product): (fp: Option<real>)
    ensures fp.Some? ==> p.ecoscoreData.Some?
  {
    match p.ecoscoreData
    case None => None
    case Some(data) => data.co2Total
  }

  /** `carbon_footprint is not None and carbon_footprint > CARBON_THRESHOLD` */
  predicate IsHighCarbon(fp: Option<real>) {
    fp.Some? && fp.value > CarbonThreshold
  }

  /** `carbon_footprint or 0`, the figure handed to the recommendation engine. */
  function FootprintOrZero(fp: Option<real>): (v: real)
    ensures v > CarbonThreshold <==> IsHighCarbon(fp)
  {
    if fp.Some? && fp.value != 0.0 then fp.value else 0.0
  }

  /**
   The unit reported with the footprint.  The scan handler sets it whenever
   `ecoscore_data` is non-empty, even without a footprint; the product
   handler only when the footprint is present and non-zero.
   */
  function UnitFor(route: Route, p: Product): (u: Option<string>)
    ensures u.Some? ==> u.value == FootprintUnit
    ensures route == ScanRoute ==> (u.Some? <==> p.ecoscoreData.Some?)
    ensures route == ProductRoute ==> (u.Some? <==> CarbonFootprint(p).Some? && CarbonFootprint(p).value != 0.0)
  {
    match route
    case ScanRoute => if p.ecoscoreData.Some? then Some(FootprintUnit) else None
    case ProductRoute =>
      var fp := CarbonFootprint(p);
      if fp.Some? && fp.value != 0.0 then Some(FootprintUnit) else None
  }

  /** `product_name or product_name_en` (default "Unknown Product" only when the latter key is absent). */
  function ProductName(p: Product): (name: Option<string>)
    ensures name.None? <==> !Truthy(p.productName.Get()) && p.productNameEn.Null?
    ensures name == Some("") ==> p.productNameEn == Value("")
    ensures p.productNameEn.Missing? ==> Truthy(name)
    ensures Truthy(name) ==> name == p.productName.Get() || name == p.productNameEn.GetOr("Unknown Product")
    ensures Truthy(p.productName.Get()) ==> name == p.productName.Get()
  {
    var primary := p.productName.Get();
    if Truthy(primary) then primary else p.productNameEn.GetOr("Unknown Product")
  }

  function NotFoundMessage(route: Route, gtin: string): string {
    match route
    case ScanRoute => "Product with barcode " + gtin + " not found in database."
    case ProductRoute => "Product with barcode " + gtin + " not found."
  }

  /** A not-found response: only status, GTIN and message are set. */
  function NotFoundResponse(gtin: Option<string>, message: string): (r: Response)
    ensures WellFormed(r)
    ensures r.status == NotFound && r.gtin == gtin && r.message == Some(message)
    ensures r.recommendations == [] && r.alternatives == [] && !r.isHighCarbon
    ensures r.carbonFootprint.None? && r.carbonFootprintUnit.None? && r.source.None?
  {
    Response(NotFound, gtin, None, None, None, None, None, None, None, None, None, false, [], [], None, Some(message))
  }

  /** The success response for a product the catalog returned. */
  function SuccessResponse(route: Route, gtin: string, p: Product, search: string -> SearchReply): (r: Response)
    requires IsGtinAsWritten(gtin)
    ensures WellFormed(r)
    ensures r.status == Success && r.gtin == Some(gtin) && r.message.None?
    ensures r.carbonFootprint == CarbonFootprint(p)
    ensures r.carbonFootprintUnit == UnitFor(route, p)
    ensures r.recommendations == Recommendations(p, FootprintOrZero(r.carbonFootprint))
    ensures r.isHighCarbon ==> r.alternatives == Alternatives(p.categories.Get(), p.ecoscoreGrade.GetOr(""), search)
    ensures r.category == p.categories.Get() && r.ecoScore == p.ecoscoreGrade.Get()
    ensures r.name == ProductName(p) && r.brand == p.brands.GetOr("Unknown Brand")
    ensures r.imageUrl == p.imageFrontUrl.Get() && r.ingredientsText == p.ingredientsTextEn.Get()
    ensures r.nutriScore == p.nutriscoreGrade.Get()
  {
    var fp := CarbonFootprint(p);
    var high := IsHighCarbon(fp);
    var recommendations := Recommendations(p, FootprintOrZero(fp));
    var alternatives := if high then Alternatives(p.categories.Get(), p.ecoscoreGrade.GetOr(""), search) else [];
    Response(
      status := Success,
      gtin := Some(gtin),
      name := ProductName(p),
      brand := p.brands.GetOr("Unknown Brand"),
      imageUrl := p.imageFrontUrl.Get(),
      category := p.categories.Get(),
      ingredientsText := p.ingredientsTextEn.Get(),
      nutriScore := p.nutriscoreGrade.Get(),
      ecoScore := p.ecoscoreGrade.Get(),
      carbonFootprint := fp,
      carbonFootprintUnit := UnitFor(route, p),
      isHighCarbon := high,
      recommendations := recommendations,
      alternatives := alternatives,
      source := Some(Source),
      message := None)
  }

  /** Look the GTIN up and turn the catalog's answer into the outcome. */
  function Resolve(route: Route, gtin: string, reply: CatalogReply, search: string -> SearchReply): (o: Outcome)
    requires IsGtinAsWritten(gtin)
    ensures reply.Unreachable? <==> o == HttpError(500, "Failed to fetch product data")
    ensures reply.Reply? ==> o.Respond?
    ensures o.Respond? ==> WellFormed(o.response) && o.response.gtin == Some(gtin)
    ensures o.Respond? && o.response.status == NotFound <==>
              reply.Reply? && (reply.product.None? || reply.status == Some(0))
    ensures o.Respond? && o.response.status == Success ==>
              o.response == SuccessResponse(route, gtin, reply.product.value, search)
  {
    match reply
    case Unreachable => HttpError(500, "Failed to fetch product data")
    case Reply(status, product) =>
      if product.None? || status == Some(0) then
        Respond(NotFoundResponse(Some(gtin), NotFoundMessage(route, gtin)))
      else
        Respond(SuccessResponse(route, gtin, product.value, search))
  }

  /** `scan_product`: reject an empty upload, decode, then look the code up. */
  function Scan(image: seq<byte>, decoder: seq<byte> -> Decoded,
                catalog: string -> CatalogReply, search: string -> SearchReply): (o: Outcome)
    ensures image == [] <==> o == HttpError(400, "Empty image file")
    ensures o.Respond? ==> WellFormed(o.response)
    ensures o.Respond? ==> o.response.gtin == ExtractGtin(decoder(image))
    ensures image != [] && ExtractGtin(decoder(image)).None? ==>
              o == Respond(NotFoundResponse(None, NoBarcodeMessage))
    ensures o.Respond? && o.response.status == Success ==>
              var reply := catalog(o.response.gtin.value);
              reply.Reply? && reply.product.Some? && reply.status != Some(0)
    ensures image != [] && ExtractGtin(decoder(image)).Some? ==>
              var gtin := ExtractGtin(decoder(image)).value;
              var reply := catalog(gtin);
              && (reply.Unreachable? <==> o == HttpError(500, "Failed to fetch product data"))
              && (o.Respond? && o.response.status == NotFound <==>
                    reply.Reply? && (reply.product.None? || reply.status == Some(0)))
              && (reply.Reply? && reply.product.Some? && reply.status != Some(0) ==>
                    o.Respond? && o.response.status == Success)
    ensures image != [] && ExtractGtin(decoder(image)).Some? && o.Respond? && o.response.status == Success ==>
              var gtin := ExtractGtin(decoder(image)).value;
              o.response == SuccessResponse(ScanRoute, gtin, catalog(gtin).product.value, search)
  {
    if image == [] then HttpError(400, "Empty image file")
    else
      match ExtractGtin(decoder(image))
      case None => Respond(NotFoundResponse(None, NoBarcodeMessage))
      case Some(gtin) => Resolve(ScanRoute, gtin, catalog(gtin), search)
  }

  /** `get_product`: reject a malformed GTIN, then look it up. */
  function GetProduct(gtin: string, catalog: string -> CatalogReply, search: string -> SearchReply): (o: Outcome)
    ensures !IsGtinAsWritten(gtin) <==> o == HttpError(400, "Invalid barcode format")
    ensures o.Respond? ==> WellFormed(o.response) && o.response.gtin == Some(gtin)
    ensures o.Respond? && o.response.status == Success ==>
              catalog(gtin).Reply? && catalog(gtin).product.Some? && catalog(gtin).status != Some(0)
    ensures IsGtinAsWritten(gtin) ==>
              var reply := catalog(gtin);
              && (reply.Unreachable? <==> o == HttpError(500, "Failed to fetch product data"))
              && (o.Respond? && o.response.status == NotFound <==>
                    reply.Reply? && (reply.product.None? || reply.status == Some(0)))
              && (reply.Reply? && reply.product.Some? && reply.status != Some(0) ==>
                    o.Respond? && o.response.status == Success)
    ensures IsGtinAsWritten(gtin) && o.Respond? && o.response.status == Success ==>
              o.response == SuccessResponse(ProductRoute, gtin, catalog(gtin).product.value, search)
  {
    if !IsGtinAsWritten(gtin) then HttpError(400, "Invalid barcode format")
    else Resolve(ProductRoute, gtin, catalog(gtin), search)
  }

  /**
   Scanning an image and looking its code up directly give the same answer,
   except for the not-found message and the footprint unit; the units agree
   whenever the footprint is present and non-zero.
   */
  lemma ScanAgreesWithLookup(image: seq<byte>, decoder: seq<byte> -> Decoded,
                             catalog: string -> CatalogReply, search: string -> SearchReply, gtin: string)
    requires image != [] && ExtractGtin(decoder(image)) == Some(gtin)
    ensures var s := Scan(image, decoder, catalog, search);
            var q := GetProduct(gtin, catalog, search);
            && s.HttpError? == q.HttpError?
            && (s.Respond? ==> s.response.(carbonFootprintUnit := None, message := None)
                               == q.response.(carbonFootprintUnit := None, message := None))
            && (q.Respond? && q.response.carbonFootprint.Some? && q.response.carbonFootprint.value != 0.0
                ==> s.response.carbonFootprintUnit == q.response.carbonFootprintUnit)
  {
  }

  /** The two handlers part ways on the unit when the eco data carries no footprint. */
  lemma UnitDivergence(gtin: string, p: Product, catalog: string -> CatalogReply, search: string -> SearchReply)
    requires IsGtinAsWritten(gtin) && catalog(gtin) == Reply(None, Some(p))
    requires p.ecoscoreData == Some(Ecoscore(None))
    ensures var q := GetProduct(gtin, catalog, search);
            q.Respond? && q.response.carbonFootprint.None? && q.response.carbonFootprintUnit.None?
    ensures forall image: seq<byte>, decoder: seq<byte> -> Decoded ::
              image != [] && ExtractGtin(decoder(image)) == Some(gtin) ==>
                var s := Scan(image, decoder, catalog, search);
                s.Respond? && s.response.carbonFootprint.None? && s.response.carbonFootprintUnit == Some(FootprintUnit)
  {
  }

  /** On a high footprint the two handlers report the same unit. */
  lemma HighCarbonUnitsAgree(p: Product)
    requires IsHighCarbon(CarbonFootprint(p))
    ensures UnitFor(ScanRoute, p) == UnitFor(ProductRoute, p) == Some(FootprintUnit)
  {
  }

  /** As written, a typed code of eight superscript twos is not rejected but looked up. */
  lemma SuperscriptCodeLookedUp(catalog: string -> CatalogReply, search: string -> SearchReply)
    ensures var code := "\U{B2}\U{B2}\U{B2}\U{B2}\U{B2}\U{B2}\U{B2}\U{B2}";
            var o := GetProduct(code, catalog, search);
            && o != HttpError(400, "Invalid barcode format")
            && (catalog(code).Reply? ==> o.Respond? && o.response.gtin == Some(code))
  {
    SuperscriptCodeAccepted();
  }

  /** A product not over the threshold never gets alternatives, whatever the search would return. */
  lemma NoAlternativesUnlessHighCarbon(gtin: string, catalog: string -> CatalogReply, search: string -> SearchReply)
    ensures var o := GetProduct(gtin, catalog, search);
            o.Respond? && !IsHighCarbon(o.response.carbonFootprint) ==> o.response.alternatives == []
  {
  }

  /** Every alternative offered scores strictly better than the product it replaces. */
  lemma AlternativesBeatProduct(gtin: string, catalog: string -> CatalogReply, search: string -> SearchReply)
    ensures var o := GetProduct(gtin, catalog, search);
            o.Respond? && o.response.status == Success ==>
              forall i :: 0 <= i < |o.response.alternatives| ==>
                EcoScoreValue(o.response.alternatives[i].ecoScore)
                > EcoScoreValue(catalog(gtin).product.value.ecoscoreGrade.GetOr(""))
  {
  }

  /**
   A high-footprint product graded e: it is flagged high, the carbon entry
   leads and the eco-grade entry follows.
   */
  lemma HighFootprintPoorGrade(gtin: string, p: Product, catalog: string -> CatalogReply,
                               search: string -> SearchReply, footprint: real)
    requires IsGtinAsWritten(gtin) && catalog(gtin) == Reply(Some(1), Some(p))
    requires p.ecoscoreGrade == Value("e") && p.ecoscoreData == Some(Ecoscore(Some(footprint)))
    requires footprint > CarbonThreshold
    ensures var o := GetProduct(gtin, catalog, search);
            && o.Respond? && o.response.status == Success && o.response.isHighCarbon
            && o.response.recommendations[0] == HighCarbon(footprint)
            && o.response.recommendations[1] == PoorEcoScore
  {
    assert CarbonFootprint(p) == Some(footprint) && FootprintOrZero(Some(footprint)) == footprint;
    CarbonThenEco(p, footprint);
  }

  /** A product graded a with no footprint: not high, the good-grade entry, and no alternatives. */
  lemma TopGradeWithoutFootprint(gtin: string, p: Product, catalog: string -> CatalogReply,
                                 search: string -> SearchReply)
    requires IsGtinAsWritten(gtin) && catalog(gtin) == Reply(Some(1), Some(p))
    requires p.ecoscoreGrade == Value("a") && p.ecoscoreData.None?
    ensures var o := GetProduct(gtin, catalog, search);
            && o.Respond? && o.response.status == Success && !o.response.isHighCarbon
            && GoodEcoScore in o.response.recommendations
            && o.response.alternatives == []
  {
    EcoRuleFires(p, 0.0);
  }
}

=== FILE: recommendations.dfy ===
/**
 The rule-based recommendation engine (`generate_recommendations`).  Four
 independent rules are evaluated in a fixed order (carbon, eco grade,
 nutrition grade, packaging); each contributes at most one entry, and when
 none fires a single "acceptable" entry is returned.  The result keeps
 rule-evaluation order; it is not sorted by priority.
 */
module RecommendationEngine {
  import opened Wrappers
  import opened Text
  import opened Catalog

  /** Footprints strictly above this many kg CO2e count as high. */
  const CarbonThreshold: real := 2.0

  datatype Priority = High | Medium | Low

  /**
   One recommendation.  Each variant stands for the fixed text the source
   shows; `HighCarbon` keeps the footprint the text quotes and
   `PoorNutrition` the upper-cased nutrition grade it names.
   */
  datatype Recommendation =
    | HighCarbon(footprint: real)
    | PoorEcoScore
    | GoodEcoScore
    | PoorNutrition(grade: string)
    | PlasticPackaging
    | Acceptable
  {
    function priority(): Priority {
      match this
      case HighCarbon(_) => High
      case PoorEcoScore => High
      case GoodEcoScore => Low
      case PoorNutrition(_) => Medium
      case PlasticPackaging => Medium
      case Acceptable => Low
    }

    function icon(): string {
      match this
      case HighCarbon(_) => "\U{1F30D}"
      case PoorEcoScore => "\U{1F331}"
      case GoodEcoScore => "\U{2705}"
      case PoorNutrition(_) => "\U{2764}\U{FE0F}"
      case PlasticPackaging => "\U{267B}\U{FE0F}"
      case Acceptable => "\U{2705}"
    }

    /** Which rule produced this entry, in evaluation order; the fallback comes last. */
    function RuleIndex(): nat {
      match this
      case HighCarbon(_) => 0
      case PoorEcoScore => 1
      case GoodEcoScore => 1
      case PoorNutrition(_) => 2
      case PlasticPackaging => 3
      case Acceptable => 4
    }
  }

  // The four rules, each yielding zero or one entries.

  function CarbonRule(footprint: real): (r: seq<Recommendation>)
    ensures FromRule(r, 0)
  {
    if footprint != 0.0 && footprint > CarbonThreshold then [HighCarbon(footprint)] else []
  }

  function EcoRule(grade: Option<string>): (r: seq<Recommendation>)
    ensures FromRule(r, 1)
  {
    if grade == Some("d") || grade == Some("e") then [PoorEcoScore]
    else if grade == Some("a") || grade == Some("b") then [GoodEcoScore]
    else []
  }

  function NutritionRule(grade: Option<string>): (r: seq<Recommendation>)
    ensures FromRule(r, 2)
  {
    if grade == Some("d") || grade == Some("e") then [PoorNutrition(Upper(grade.value))] else []
  }

  /** Some tag mentions "plastic" in any letter case. */
  predicate AnyPlastic(tags: seq<string>) {
    exists i :: 0 <= i < |tags| && Contains(Lower(tags[i]), "plastic")
  }

  function PackagingRule(tags: seq<string>): (r: seq<Recommendation>)
    ensures FromRule(r, 3)
  {
    if AnyPlastic(tags) then [PlasticPackaging] else []
  }

  /** True when `grade` is exactly "d" or "e" (no case folding). */
  predicate IsPoor(grade: Option<string>) {
    grade == Some("d") || grade == Some("e")
  }

  /** True when `grade` is exactly "a" or "b" (no case folding). */
  predicate IsGood(grade: Option<string>) {
    grade == Some("a") || grade == Some("b")
  }

  /** Entries appear in strictly increasing rule order: at most one per rule. */
  predicate InRuleOrder(r: seq<Recommendation>) {
    forall i, j :: 0 <= i < j < |r| ==> r[i].RuleIndex() < r[j].RuleIndex()
  }

  /**
   `generate_recommendations(product, footprint)`, where the caller passes
   `carbon_footprint or 0`.
   */
  function Recommendations(p: Product, footprint: real): (r: seq<Recommendation>)
    ensures 1 <= |r| <= 4
    ensures InRuleOrder(r)
    ensures Acceptable in r ==> r == [Acceptable]
  {
    var c := CarbonRule(footprint);
    var e := EcoRule(p.ecoscoreGrade.GetOr(""));
    var n := NutritionRule(p.nutriscoreGrade.GetOr(""));
    var k := PackagingRule(p.packagingTags);
    var fired := c + e + n + k;
    ConcatenationInRuleOrder(c, e, n, k);
    if fired == [] then [Acceptable] else fired
  }

  /** The carbon entry shows exactly when the footprint exceeds the threshold, and then it comes first. */
  lemma CarbonRuleFires(p: Product, footprint: real)
    ensures HighCarbon(footprint) in Recommendations(p, footprint) <==> footprint > CarbonThreshold
    ensures footprint > CarbonThreshold ==> Recommendations(p, footprint)[0] == HighCarbon(footprint)
  {
  }

  /** A rule's output: at most one entry, carrying that rule's index. */
  predicate FromRule(s: seq<Recommendation>, index: nat) {
    |s| <= 1 && forall x :: x in s ==> x.RuleIndex() == index
  }

  lemma ConcatenationInRuleOrder(c: seq<Recommendation>, e: seq<Recommendation>,
                                 n: seq<Recommendation>, k: seq<Recommendation>)
    requires FromRule(c, 0) && FromRule(e, 1) && FromRule(n, 2) && FromRule(k, 3)
    ensures |c + e + n + k| <= 4
    ensures InRuleOrder(c + e + n + k)
    ensures Acceptable !in c + e + n + k
  {
    var r := c + e + n + k;
    forall i | 0 <= i < |r|
      ensures r[i].RuleIndex() == if i < |c| then 0
                                  else if i < |c + e| then 1
                                  else if i < |c + e + n| then 2
                                  else 3
      ensures r[i].RuleIndex() >= i
    {
      if i < |c| {
        assert r[i] in c;
      } else if i < |c + e| {
        assert r[i] == e[i - |c|];
      } else if i < |c + e + n| {
        assert r[i] == n[i - |c + e|];
      } else {
        assert r[i] == k[i - |c + e + n|];
      }
    }
  }

  /** The eco rule shows in the output exactly when the grade is literally "d"/"e" (high) or "a"/"b" (low). */
  lemma EcoRuleFires(p: Product, footprint: real)
    ensures PoorEcoScore in Recommendations(p, footprint) <==> IsPoor(p.ecoscoreGrade.GetOr(""))
    ensures GoodEcoScore in Recommendations(p, footprint) <==> IsGood(p.ecoscoreGrade.GetOr(""))
  {
  }

  /** The nutrition rule shows exactly when the nutrition grade is literally "d" or "e", naming it in upper case. */
  lemma NutritionRuleFires(p: Product, footprint: real)
    ensures var r := Recommendations(p, footprint);
            (exists i :: 0 <= i < |r| && r[i].PoorNutrition?) <==> IsPoor(p.nutriscoreGrade.GetOr(""))
    ensures var r := Recommendations(p, footprint);
            forall i :: 0 <= i < |r| && r[i].PoorNutrition? ==> r[i].grade == "D" || r[i].grade == "E"
    ensures var r := Recommendations(p, footprint);
            var nutri := p.nutriscoreGrade.GetOr("");
            forall i :: 0 <= i < |r| && r[i].PoorNutrition? ==> nutri.Some? && r[i].grade == Upper(nutri.value)
  {
    var nutri := p.nutriscoreGrade.GetOr("");
    var c, e, n, k := CarbonRule(footprint), EcoRule(p.ecoscoreGrade.GetOr("")), NutritionRule(nutri), PackagingRule(p.packagingTags);
    var r := Recommendations(p, footprint);
    var ce := c + e;
    assert forall x: Recommendation :: x in ce + k ==> !x.PoorNutrition?;
    if IsPoor(nutri) {
      assert r == ce + n + k;
      assert r[|ce|] == PoorNutrition(Upper(nutri.value));
      assert Upper("d") == "D" && Upper("e") == "E";
    } else {
      assert n == [];
      assert forall x: Recommendation :: x in r ==> !x.PoorNutrition?;
    }
    forall i | 0 <= i < |r| && r[i].PoorNutrition?
      ensures r[i].grade == "D" || r[i].grade == "E"
      ensures nutri.Some? && r[i].grade == Upper(nutri.value)
    {
      assert r[i] in r;
      assert IsPoor(nutri) && r[i] in n;
      assert Upper("d") == "D" && Upper("e") == "E";
    }
  }

  /** The packaging rule shows exactly when some tag contains "plastic" in any letter case. */
  lemma PackagingRuleFires(p: Product, footprint: real)
    ensures PlasticPackaging in Recommendations(p, footprint) <==> AnyPlastic(p.packagingTags)
  {
  }

  /** The fallback entry appears exactly when no rule fires. */
  lemma FallbackIffNothingFires(p: Product, footprint: real)
    ensures Acceptable in Recommendations(p, footprint) <==>
              && footprint <= CarbonThreshold
              && !IsPoor(p.ecoscoreGrade.GetOr("")) && !IsGood(p.ecoscoreGrade.GetOr(""))
              && !IsPoor(p.nutriscoreGrade.GetOr(""))
              && !AnyPlastic(p.packagingTags)
  {
  }

  // A data-driven reading of the same rule set: an ordered table of rules,
  // each a condition with the entry it emits, evaluated uniformly.

  datatype Rule = CarbonCheck | EcoCheck | NutritionCheck | PackagingCheck

  const RuleTable: seq<Rule> := [CarbonCheck, EcoCheck, NutritionCheck, PackagingCheck]

  /** The entry one rule emits for a product, if its condition holds. */
  function Fire(rule: Rule, p: Product, footprint: real): Option<Recommendation> {
    var eco := p.ecoscoreGrade.GetOr("");
    var nutri := p.nutriscoreGrade.GetOr("");
    match rule
    case CarbonCheck => if footprint > CarbonThreshold then Some(HighCarbon(footprint)) else None
    case EcoCheck =>
      if IsPoor(eco) then Some(PoorEcoScore) else if IsGood(eco) then Some(GoodEcoScore) else None
    case NutritionCheck => if IsPoor(nutri) then Some(PoorNutrition(Upper(nutri.value))) else None
    case PackagingCheck => if AnyPlastic(p.packagingTags) then Some(PlasticPackaging) else None
  }

  /** All entries the rules emit, in table order. */
  function Evaluate(rules: seq<Rule>, p: Product, footprint: real): (r: seq<Recommendation>)
    ensures |r| <= |rules|
  {
    if rules == [] then [] else Emitted(Fire(rules[0], p, footprint)) + Evaluate(rules[1..], p, footprint)
  }

  /** The entries one firing contributes: none or one. */
  function Emitted(fired: Option<Recommendation>): (r: seq<Recommendation>)
    ensures |r| <= 1
  {
    match fired
    case Some(e) => [e]
    case None => []
  }

  /** The engine is the rule table evaluated in order, with the fallback when nothing fires. */
  lemma RecommendationsFollowRuleTable(p: Product, footprint: real)
    ensures var fired := Evaluate(RuleTable, p, footprint);
            Recommendations(p, footprint) == if fired == [] then [Acceptable] else fired
  {
    RuleTableUnfolds(p, footprint);
    FiringsAgree(p, footprint);
  }

  lemma RuleTableUnfolds(p: Product, footprint: real)
    ensures Evaluate(RuleTable, p, footprint)
            == Emitted(Fire(CarbonCheck, p, footprint)) + Emitted(Fire(EcoCheck, p, footprint))
               + Emitted(Fire(NutritionCheck, p, footprint)) + Emitted(Fire(PackagingCheck, p, footprint))
  {
    var t1, t2, t3 := RuleTable[1..], RuleTable[2..], RuleTable[3..];
    assert t1 == [EcoCheck, NutritionCheck, PackagingCheck] && t1[1..] == t2;
    assert t2 == [NutritionCheck, PackagingCheck] && t2[1..] == t3;
    assert t3 == [PackagingCheck] && t3[1..] == [];
    var c, e := Emitted(Fire(CarbonCheck, p, footprint)), Emitted(Fire(EcoCheck, p, footprint));
    var n, k := Emitted(Fire(NutritionCheck, p, footprint)), Emitted(Fire(PackagingCheck, p, footprint));
    assert Evaluate(t3, p, footprint) == k + Evaluate([], p, footprint) == k;
    assert Evaluate(t2, p, footprint) == n + k;
    assert Evaluate(t1, p, footprint) == e + (n + k);
    assert Evaluate(RuleTable, p, footprint) == c + (e + (n + k)) == c + e + n + k;
  }

  lemma FiringsAgree(p: Product, footprint: real)
    ensures Emitted(Fire(CarbonCheck, p, footprint)) == CarbonRule(footprint)
    ensures Emitted(Fire(EcoCheck, p, footprint)) == EcoRule(p.ecoscoreGrade.GetOr(""))
    ensures Emitted(Fire(NutritionCheck, p, footprint)) == NutritionRule(p.nutriscoreGrade.GetOr(""))
    ensures Emitted(Fire(PackagingCheck, p, footprint)) == PackagingRule(p.packagingTags)
  {
  }

  /** Rule order is not priority order: a good eco grade (low) precedes a poor nutrition grade (medium). */
  lemma NotSortedByPriority(p: Product)
    requires p.ecoscoreGrade == Value("a") && p.nutriscoreGrade == Value("d") && p.packagingTags == []
    ensures Recommendations(p, 0.0) == [GoodEcoScore, PoorNutrition("D")]
    ensures Recommendations(p, 0.0)[0].priority() == Low
    ensures Recommendations(p, 0.0)[1].priority() == Medium
  {
    assert Upper("d") == "D";
  }

  /** A high footprint and a poor eco grade: the carbon entry first, the eco entry second. */
  lemma CarbonThenEco(p: Product, footprint: real)
    requires footprint > CarbonThreshold && IsPoor(p.ecoscoreGrade.GetOr(""))
    ensures |Recommendations(p, footprint)| >= 2
    ensures Recommendations(p, footprint)[0] == HighCarbon(footprint)
    ensures Recommendations(p, footprint)[1] == PoorEcoScore
  {
  }

  /** A footprint of exactly the threshold does not fire the carbon rule. */
  lemma ThresholdIsExclusive(p: Product)
    ensures HighCarbon(CarbonThreshold) !in Recommendations(p, CarbonThreshold)
  {
  }
}

=== FILE: text.dfy ===
/**
 The handful of Python `str` operations the backend relies on: `lower`/`upper`
 on ASCII letters, substring containment, `split(',')[0]` and `strip()`, plus
 the ASCII digit test of the corrected GTIN check (`str.isdigit()` itself is
 `Barcode.IsPythonDigit`).
 */
module Text {

  predicate IsAsciiDigit(c: char) {
    '0' <= c <= '9'
  }

  predicate AllAsciiDigits(s: string) {
    forall i :: 0 <= i < |s| ==> IsAsciiDigit(s[i])
  }

  /** The characters Python's `str.strip()` removes (those for which `str.isspace()` holds). */
  const PythonWhitespace: set<char> := {
    '\t', '\n', '\U{B}', '\U{C}', '\r', '\U{1C}', '\U{1D}', '\U{1E}', '\U{1F}', ' ', '\U{85}',
    '\U{A0}', '\U{1680}', '\U{2000}', '\U{2001}', '\U{2002}', '\U{2003}', '\U{2004}',
    '\U{2005}', '\U{2006}', '\U{2007}', '\U{2008}', '\U{2009}', '\U{200A}', '\U{2028}',
    '\U{2029}', '\U{202F}', '\U{205F}', '\U{3000}'
  }

  predicate IsSpace(c: char) {
    c in PythonWhitespace
  }

  function LowerChar(c: char): (d: char)
    ensures 'A' <= c <= 'Z' ==> 'a' <= d <= 'z'
    ensures !('A' <= c <= 'Z') ==> d == c
  {
    if 'A' <= c <= 'Z' then (c as int + 32) as char else c
  }

  function UpperChar(c: char): (d: char)
    ensures 'a' <= c <= 'z' ==> 'A' <= d <= 'Z' && LowerChar(d) == c
    ensures !('a' <= c <= 'z') ==> d == c
  {
    if 'a' <= c <= 'z' then (c as int - 32) as char else c
  }

  function Lower(s: string): (r: string)
    ensures |r| == |s|
    ensures forall i :: 0 <= i < |s| ==> r[i] == LowerChar(s[i])
  {
    seq(|s|, i requires 0 <= i < |s| => LowerChar(s[i]))
  }

  function Upper(s: string): (r: string)
    ensures |r| == |s|
    ensures forall i :: 0 <= i < |s| ==> r[i] == UpperChar(s[i])
  {
    seq(|s|, i requires 0 <= i < |s| => UpperChar(s[i]))
  }

  /** `pat` occurs in `s` starting at index `k`. */
  predicate OccursAt(s: string, pat: string, k: int) {
    0 <= k && k + |pat| <= |s| && s[k..k + |pat|] == pat
  }

  /** `pat` is a contiguous piece of `s`. */
  ghost predicate IsInfix(pat: string, s: string) {
    exists k :: OccursAt(s, pat, k)
  }

  /** Python's `pat in s` for strings. */
  function Contains(s: string, pat: string): (b: bool)
    ensures b <==> IsInfix(pat, s)
    decreases |s|
  {
    if |s| < |pat| then
      assert forall k :: !OccursAt(s, pat, k);
      false
    else if s[..|pat|] == pat then
      assert OccursAt(s, pat, 0);
      true
    else
      var b := Contains(s[1..], pat);
      assert forall k :: OccursAt(s[1..], pat, k) <==> OccursAt(s, pat, k + 1) by {
        forall k ensures OccursAt(s[1..], pat, k) <==> OccursAt(s, pat, k + 1) {
          if 0 <= k && k + |pat| <= |s| - 1 {
            assert s[1..][k..k + |pat|] == s[k + 1..k + 1 + |pat|];
          }
        }
      }
      assert !OccursAt(s, pat, 0);
      assert forall k :: OccursAt(s, pat, k) && k != 0 ==> OccursAt(s[1..], pat, k - 1);
      b
  }

  /** The index of the first comma at or after `i`, or `|s|` when there is none. */
  function CommaFrom(s: string, i: nat): (n: nat)
    requires i <= |s|
    ensures i <= n <= |s|
    ensures forall k :: i <= k < n ==> s[k] != ','
    ensures n < |s| ==> s[n] == ','
    decreases |s| - i
  {
    if i < |s| && s[i] != ',' then CommaFrom(s, i + 1) else i
  }

  /** Python's `s.split(',')[0]`: everything before the first comma. */
  function FirstSegment(s: string): (r: string)
    ensures |r| <= |s| && r == s[..|r|]
    ensures ',' !in r
    ensures |r| < |s| ==> s[|r|] == ','
  {
    var n := CommaFrom(s, 0);
    assert forall k :: 0 <= k < n ==> s[..n][k] == s[k];
    s[..n]
  }

  /** The index of the first non-whitespace character at or after `i`, or `|s|`. */
  function SkipSpaces(s: string, i: nat): (n: nat)
    requires i <= |s|
    ensures i <= n <= |s|
    ensures forall k :: i <= k < n ==> IsSpace(s[k])
    ensures n < |s| ==> !IsSpace(s[n])
    decreases |s| - i
  {
    if i < |s| && IsSpace(s[i]) then SkipSpaces(s, i + 1) else i
  }

  /** The end of `s[lo..j]` once trailing whitespace is dropped. */
  function TrimEnd(s: string, lo: nat, j: nat): (n: nat)
    requires lo <= j <= |s|
    ensures lo <= n <= j
    ensures forall k :: n <= k < j ==> IsSpace(s[k])
    ensures n > lo ==> !IsSpace(s[n - 1])
    decreases j
  {
    if j > lo && IsSpace(s[j - 1]) then TrimEnd(s, lo, j - 1) else j
  }

  /** `r` is `s[i..i + |r|]` and everything of `s` around it is whitespace. */
  predicate StrippedAt(s: string, r: string, i: int) {
    && 0 <= i && i + |r| <= |s| && r == s[i..i + |r|]
    && (forall k :: 0 <= k < i ==> IsSpace(s[k]))
    && (forall k :: i + |r| <= k < |s| ==> IsSpace(s[k]))
  }

  /** Python's `s.strip()`: the whitespace-free core of `s`. */
  function Strip(s: string): (r: string)
    ensures exists i :: StrippedAt(s, r, i)
    ensures r == [] || (!IsSpace(r[0]) && !IsSpace(r[|r| - 1]))
  {
    var i := SkipSpaces(s, 0);
    var j := TrimEnd(s, i, |s|);
    var r := s[i..j];
    assert StrippedAt(s, r, i);
    r
  }

  /** A piece of a piece of `s` is a piece of `s`. */
  lemma InfixTransitive(a: string, b: string, c: string)
    requires IsInfix(a, b) && IsInfix(b, c)
    ensures IsInfix(a, c)
  {
    var i :| OccursAt(b, a, i);
    var j :| OccursAt(c, b, j);
    forall k | 0 <= k < |a|
      ensures c[j + i + k] == a[k]
    {
      assert a[k] == b[i + k] == c[j + i + k];
    }
    assert c[j + i..j + i + |a|] == a;
    assert OccursAt(c, a, j + i);
  }

  /** Every character of an infix occurs in the whole. */
  lemma InfixCharacters(a: string, b: string)
    requires IsInfix(a, b)
    ensures forall ch :: ch in a ==> ch in b
  {
  }

  lemma StripIsInfix(s: string)
    ensures IsInfix(Strip(s), s)
  {
    var r := Strip(s);
    var i :| StrippedAt(s, r, i);
    assert OccursAt(s, r, i);
  }
}

=== FILE: wrappers.dfy ===
/** The optional-value datatype used throughout the model for Python's `None`. */
module Wrappers {

  datatype Option<+T> = None | Some(value: T)
}
